=== FILE: README.md ===
# Box detector upload service — a Dafny model

This project models the sequential logic of a small object-detection service.
The service counts full and empty boxes in an image with a YOLO detector.
Four pieces are modelled:

- **Upload validation and content addressing** (`app/utils.py`).
  `allowed_file` is the extension allow-list {png, jpg, jpeg}. It looks only at
  the text after the last `.` and ignores letter case. `get_file_hash` names a
  stored upload by the SHA-256 hex digest of its bytes, a `.`, and the
  lower-cased extension.
- **The `POST /model/predict` handler** (`app/routers/predict.py`). It runs in
  this order: validate, read, name, write, infer. The upload directory is an
  abstract store (`map<path, bytes>`). The file write and the detector are
  parameters, and either can fail. Every run ends in a success body or a single
  `(status, detail)` error. The model also records the effects performed.
- **Result shaping in `model_predict`** (`app/model/services.py`). No
  detections gives `(0, "")`. Otherwise the count is the number of boxes, and
  the image is the Base64 text of the PNG of the rendering. Before PNG
  encoding the rendering's channels are reversed (BGR to RGB). Base64 follows
  section 4 of RFC 4648. The model has an encoder, a strict decoder, and a
  proof that each inverts the other.
- **Class-balanced sampling counts** (`scripts/fine_tunning_double_balanced.py`).
  `count_instances` counts how often each class id occurs across all labels,
  then raises every zero count to one. `calculate_weights` yields one entry per
  label, in label order.

Modules: `Common` (bytes, `Option`, `Result`, the store), `Text` (ASCII
lower-casing, last-occurrence split), `Utils`, `Base64`, `Services`,
`Predict`, `WeightedDataset`.

Some things are parameters instead of code:

- SHA-256 is a function `seq<byte> -> HexDigest`. Its results are 64 lowercase
  hex characters.
- The file write is `Writer`. It returns the exception message when the write
  raises.
- The inference call is `Predictor`, or `Services.Detector` for the YOLO call
  itself.
- PNG encoding is `Services.PngEncoder`.
- The upload folder from the settings module is a string argument.

Notes on the code's behaviour:

- `model_predict` returns the pair `(num_objects, img_base64)`
  (app/model/services.py:23). The count is the total number of boxes in the
  first result.
- With no results or no boxes it returns `(0, "")`: the image string is empty
  (app/model/services.py:13).
- The handler's success body has the four keys `success`, `num_objects`,
  `image_base64` and `image_file_name`. The declared response model
  `PredictResponse` (app/model/schema.py:3-8) also requires `bounding_objects`.
  The body lacks that field, and `Predict.SuccessBodyLacksBoundingObjects`
  states this. The model does not claim the body conforms to `PredictResponse`.

## Model

| member | source | states |
|---|---|---|
| Text.LastIndexOf | app/utils.py:5 | finds the last `.`: none exactly when the name has no `.`; otherwise the returned position holds `.` and no later position does |
| Text.RSplitOnce | app/utils.py:5 | `rsplit('.', 1)` has two parts exactly when the name has a `.`; the name is head + `.` + tail, and the tail has no `.` |
| Text.RSplitOnceUnique | app/utils.py:5 | any split of a name into a prefix, a `.` and a dot-free tail is the one `rsplit('.', 1)` returns |
| Text.Lower | app/utils.py:5 | `lower()` keeps the length and lower-cases each character in place |
| Utils.Extension | app/utils.py:10 | the extension exists exactly when the name has a `.`; it has no `.` and is shorter than the name (its value is stated by `Utils.ExtensionOfSplit`) |
| Utils.ExtensionOfSplit | app/utils.py:10 | for a name `pre.ext` with a dot-free `ext`, the extension is `ext` lower-cased, the text after the last `.` |
| Utils.AllowedFile | app/utils.py:3-5 | the name has a `.` and the lower-cased text after the last one is png, jpg or jpeg; so an accepted name has a `.` and at least four characters |
| Utils.AllowedFileIff | app/utils.py:3-5 | a name is accepted exactly when it is `pre.ext` with a dot-free `ext` that lower-cases to png, jpg or jpeg; so a name with no `.` is rejected |
| Utils.AllowedFileSplit | app/utils.py:5 | for a name split at its last `.`, acceptance depends only on the lower-cased tail |
| Utils.AllowedFileLastSuffixOnly | app/utils.py:5 | whatever the prefix, a name ending `.png.exe` is rejected and one ending `.tar.png` is accepted: only the last suffix counts |
| Utils.AllowedFileUpperCase | app/utils.py:5 | whatever the prefix, a name ending `.PNG` is accepted |
| Utils.AllowedFileMixedCase | app/utils.py:5 | whatever the prefix, a name ending `.JpEg` is accepted |
| Utils.AllowedFileRejects | app/utils.py:4-5 | whatever the prefix, a name ending `.gif` is rejected, and so is one ending in `.` (empty extension) |
| Utils.AllowedFileIgnoresCase | app/utils.py:5 | two names equal up to letter case are both accepted or both rejected |
| Utils.ExtensionIgnoresCase | app/utils.py:10 | names equal up to letter case have the same lower-cased extension |
| Utils.LastDotUnderLower | app/utils.py:10 | lower-casing moves no `.`, so the last `.` stays at the same position |
| Utils.FileHash | app/utils.py:7-11 | a name is produced exactly when the filename has a `.` (otherwise `IndexError`); it is 64 lowercase hex characters, then `.`, then more text (the text is stated by `Utils.FileHashOfSplit`) |
| Utils.FileHashOfSplit | app/utils.py:7-11 | for a name `pre.ext` with a dot-free `ext`, the stored name is the digest of the contents, `.`, and `ext` lower-cased |
| Utils.FileHashDeterministic | app/utils.py:8-11 | the same bytes under names equal up to letter case give the same stored name |
| Utils.FileHashSameName | app/utils.py:11 | two uploads get the same stored name exactly when their digests and lower-cased extensions agree |
| Utils.ParseStoredName | app/utils.py:11 | a parsed stored name splits into a 64-character digest, `.`, and the rest |
| Utils.ParseFileHash | app/utils.py:11 | a stored name parses back to the digest of the contents and the lower-cased extension |
| Base64.EncodeChar | app/model/services.py:21 | each 6-bit value maps to a character of the RFC 4648 alphabet |
| Base64.DecodeChar | frontend/app.py:49 | the alphabet decodes to 6-bit values and encoding gives the same character back |
| Base64.DecodeEncodeChar | app/model/services.py:21 | the alphabet table is a bijection on 6-bit values |
| Base64.OctetsOfSextets | app/model/services.py:21 | cutting three bytes into four 6-bit groups and joining them again gives the bytes back |
| Base64.SextetsOfOctets | frontend/app.py:49 | joining four 6-bit groups into three bytes and cutting them again gives the groups back |
| Base64.Encode | app/model/services.py:21 | `b64encode` output has length 4·⌈n/3⌉ for n input bytes |
| Base64.EncodeVectorF | app/model/services.py:21 | `b64encode(b"f")` is `Zg==`, the test vector of section 10 of RFC 4648 |
| Base64.EncodeVectorFo | app/model/services.py:21 | `b64encode(b"fo")` is `Zm8=` (section 10 of RFC 4648) |
| Base64.EncodeVectorFoo | app/model/services.py:21 | `b64encode(b"foo")` is `Zm9v` (section 10 of RFC 4648) |
| Base64.EncodeVectorFoobar | app/model/services.py:21 | `b64encode(b"foobar")` is `Zm9vYmFy` (section 10 of RFC 4648); with the other vectors this checks nine entries of Table 1 and both padding forms |
| Base64.DecodeQuantum | frontend/app.py:49 | a four-character quantum decodes to 1 to 3 bytes; fewer than 3 only in the final, padded quantum |
| Base64.Decode | frontend/app.py:49 | an accepted string has a length that is a multiple of 4 and decodes to at most 3 bytes per 4 characters |
| Base64.DecodeGroup | app/model/services.py:21 | a full 24-bit group decodes to its three bytes |
| Base64.DecodeOne | app/model/services.py:21 | a final single byte with `==` padding decodes to that byte |
| Base64.DecodeTwo | app/model/services.py:21 | a final byte pair with `=` padding decodes to those bytes |
| Base64.DecodeEncode | frontend/app.py:49 | decoding the server's image string gives exactly the PNG bytes it encoded |
| Base64.EncodeDecodeQuantum | frontend/app.py:49 | a quantum that decodes is the encoding of the 1, 2 or 3 bytes it decodes to |
| Base64.EncodeDecode | frontend/app.py:81 | the strict decoder accepts only encoder output: a string that decodes is the encoding of its bytes |
| Services.SwapChannels | app/model/services.py:17 | one pixel (c0, c1, c2) becomes (c2, c1, c0) |
| Services.ReverseChannels | app/model/services.py:17 | `rendered[..., ::-1]` keeps height and width and swaps the first and third channel of every pixel |
| Services.ReverseChannelsInvolution | app/model/services.py:17 | reversing the channels twice gives the rendering back |
| Services.ReverseChannelsKeepsShape | app/model/services.py:17 | a rectangular rendering stays rectangular |
| Services.ShapePrediction | app/model/services.py:12-23 | no results or no boxes gives exactly `(0, "")`; otherwise the count is the number of boxes (at least 1), the string decodes to the PNG of the channel-reversed rendering, and its length is 4·⌈n/3⌉ |
| Services.ModelPredict | app/model/services.py:10-23 | an exception from the detector propagates unchanged; otherwise the result is shaped as above |
| Services.ImageEmptyIffNoObjects | app/model/services.py:12-23 | when PNG encoding never yields an empty buffer, the image string is empty exactly when the count is 0 |
| Predict.JoinPath | app/routers/predict.py:25 | `os.path.join` puts the name at the end of the path: after the folder alone when it ends in `/`, otherwise after the folder and one added `/` |
| Predict.StoredName | app/routers/predict.py:23-24 | an accepted upload always has a content address: `get_file_hash` cannot raise after `allowed_file` passed |
| Predict.RunModel | app/routers/predict.py:33-42 | inference runs on the stored file; an exception becomes 500 "Error processing file: …" with the file left in place; a success gives the four-key body with the count and image passed through and the stored name |
| Predict.Persist | app/routers/predict.py:21-31 | read, name and write come first, in that order; a failed write gives 500 "Error saving file: …", leaves the store unchanged and never runs inference; a good write stores the hashed bytes and then runs inference |
| Predict.HandlePredict | app/routers/predict.py:14-19 | a missing file gives 400 "No file provided." and a disallowed extension gives 400 "Unsupported file type."; both with no effects and an unchanged store |
| Predict.PersistFailsWith500 | app/routers/predict.py:21-42 | once the upload is accepted, every error answer is a 500 |
| Predict.StatusClassification | app/routers/predict.py:15-42 | the answer is 400 exactly for a missing file or a disallowed extension; any other error is 500 |
| Predict.InferenceOnWrittenPath | app/routers/predict.py:27-34 | after a good write, the inference is the effect right after the write and runs on the written path, which holds the written bytes |
| Predict.InferenceAfterPersist | app/routers/predict.py:27-34 | inference runs only right after the write of the same path, and that file holds the written bytes afterwards |
| Predict.StoredFileIsContentAddressed | app/routers/predict.py:21-29 | after a good write, the bytes at the stored path hash to the stored name, and the path ends with that name |
| Predict.SameContentSamePath | app/routers/predict.py:23-25 | uploads with the same bytes and names equal up to letter case are written to the same path |
| Predict.ReuploadIdempotent | app/routers/predict.py:27-29 | after a good first write, uploading the same file again leaves the store as it was, whether the second write and inference succeed or fail |
| Predict.SuccessKeys | app/routers/predict.py:35-40 | every success body has exactly the keys `success`, `num_objects`, `image_base64` and `image_file_name` |
| Predict.MissingField | app/model/schema.py:3-8 | those four keys are a proper subset of the `PredictResponse` fields, short by `bounding_objects` alone |
| Predict.SuccessBodyLacksBoundingObjects | app/routers/predict.py:35-40 | the success body lacks `bounding_objects`, the only `PredictResponse` field it lacks |
| Predict.EndToEnd | app/routers/predict.py:33-40 | with `model_predict` as the predictor, a detector error becomes a 500; no boxes gives count 0 and an empty image; otherwise the count is the box count and the image decodes to the annotated PNG |
| WeightedDataset.AllIdsCons | scripts/fine_tunning_double_balanced.py:22-23 | the ids of labels i.. are label i's ids followed by the ids of the later labels |
| WeightedDataset.Slot | scripts/fine_tunning_double_balanced.py:25 | a numpy index is valid exactly when it is in [-n, n); a non-negative index names its own slot and a negative index c names slot c + n |
| WeightedDataset.SumIncrement | scripts/fine_tunning_double_balanced.py:25 | `counts[c] += 1` adds one to the total |
| WeightedDataset.Tally | scripts/fine_tunning_double_balanced.py:22-25 | counting succeeds exactly when every id is a valid index; the length is kept and the total grows by the number of ids |
| WeightedDataset.TallyCountsOccurrences | scripts/fine_tunning_double_balanced.py:22-25 | with every id in [0, n), each class count grows by the number of occurrences of that class |
| WeightedDataset.Zeros | scripts/fine_tunning_double_balanced.py:21 | `np.zeros(n)` has n zero entries |
| WeightedDataset.CountRaw | scripts/fine_tunning_double_balanced.py:20-25 | the counting loops fail exactly on an id outside [-n, n); they give n counts summing to the total number of ids; with ids in [0, n), `counts[c]` is the number of occurrences of `c` |
| WeightedDataset.ClampZeros | scripts/fine_tunning_double_balanced.py:26 | every count becomes at least 1: zeros become 1 and nonzero counts are unchanged |
| WeightedDataset.CountInstances | scripts/fine_tunning_double_balanced.py:20-26 | `count_instances` gives n counts, all at least 1, so the division at line 14 never divides by zero; with ids in [0, n), each count is the occurrence count, or 1 when that is 0 |
| WeightedDataset.IndexableAllIds | scripts/fine_tunning_double_balanced.py:28-34 | all ids together are valid indices exactly when each label's ids are |
| WeightedDataset.Gather | scripts/fine_tunning_double_balanced.py:32 | `class_weights[cls_ids]` succeeds exactly when every id is valid, and returns the weights of the ids in order |
| WeightedDataset.CalculateWeights | scripts/fine_tunning_double_balanced.py:28-34 | exactly one weight per label, in label order; entry i aggregates the class weights of label i |
| WeightedDataset.WeightsAfterCounting | scripts/fine_tunning_double_balanced.py:13-17 | once counting succeeded, computing the weights cannot raise, and it gives one entry per label |

## Left out

- The YOLO model: loading the weights (app/model/services.py:7-8), `predict`
  and `plot`. They are foreign library calls. `plot(labels=False)` appears
  only as the `plotted` image carried by each detection.
- Box coordinates and confidences are floats and are not modelled. A box
  keeps only its class id.
- SHA-256 internals: the digest is a parameter shaped like a hex digest. The
  claim that different contents give different digests is not modelled.
- PIL's `Image.fromarray` and PNG encoding are a parameter that cannot fail.
- Text.Lower: lower-cases only ASCII letters, while Python's `str.lower` is
  Unicode-aware. No non-ASCII character lower-cases to a letter of png, jpg
  or jpeg, so the allow-list verdict is the same. A stored extension with
  non-ASCII upper-case letters would differ, but such names never pass
  `allowed_file`.
- Base64.Decode: strict RFC 4648 decoding. It rejects characters outside the
  alphabet, misplaced padding and non-zero pad bits. Python's `b64decode`
  without `validate=True` is lenient in at least four ways:
  - it skips characters outside the alphabet;
  - it ignores non-zero pad bits (`"QR=="` decodes to `A`);
  - it stops at the first complete padding (`"QQ==QQ=="` decodes to `A`);
  - it skips a stray `=` before a quantum's second data character
    (`"QUJD="` decodes to `ABC` and `"Q=Q=="` to `A`).

  The two agree on the canonical strings `b64encode` produces. The model's
  decoder returns `None` on the other strings.
- Base64.EncodeDecode: holds for the strict decoder only. With Python's
  lenient decoder, distinct strings can decode to the same bytes, so a
  decoded string need not be the encoding of its bytes.
- FastAPI's request and response validation around the handler is not
  modelled. `file: UploadFile = File(...)` (app/routers/predict.py:14) makes
  FastAPI answer 422 for a missing file before the handler runs, so the 400
  "No file provided." is only what the handler itself raises.
  `response_model=PredictResponse` (app/routers/predict.py:13) checks the
  returned dict after the handler returns. The dict lacks the required
  `bounding_objects`, so that check fails with a server error instead of
  sending the body. `Predict.Response` is what the handler returns or raises.
- Real file I/O and the async stream: `read()` returns the whole upload, and
  the second read in `get_file_hash` after `seek(0)` sees the same bytes.
- Predict.Persist: a failed write leaves the store unchanged. The partial or
  truncated file that `open(path, "wb")` can leave behind is not modelled.
- An upload whose file name is `None` is not modelled. A filename is always a
  string.
- The JWT dependency (app/routers/predict.py:14) is taken as passed.
- `run_in_threadpool` concurrency (app/routers/predict.py:34): inference is a
  plain synchronous call.
- Float arithmetic in the weighted dataset: `np.sum(counts) / counts`,
  `np.mean`, and the normalisation in `calculate_probabilities`. Class
  weights are a generic element type, and `np.mean` is a generic `agg`
  function.
- Random sampling in `__getitem__`, and the training and fine-tuning scripts
  (layer freezing, `model.train`). None of them has logic to model.
- The frontend (Streamlit UI, WebRTC streaming, text overlay). It is used
  only as the consumer of the Base64 image string.
- The `/model/predict_stream` endpoint the frontend calls. Its server code is
  not part of this model.

=== FILE: base64.dfy ===
/** Base64 as defined in section 4 of RFC 4648: Python's `base64.b64encode`
    on the server side, and the decoder `base64.b64decode` the client applies
    to the annotated image. */
module Base64 {
  import opened Common

  /** A 6-bit group, the value one Base64 character carries. */
  type sextet = x: int | 0 <= x < 64

  /** The 64 characters of the alphabet in Table 1 of RFC 4648. */
  predicate IsAlphabetChar(c: char) {
    'A' <= c <= 'Z' || 'a' <= c <= 'z' || '0' <= c <= '9' || c == '+' || c == '/'
  }

  /** The character Table 1 assigns to a 6-bit value. */
  function EncodeChar(v: sextet): (c: char)
    ensures IsAlphabetChar(c)
  {
    if v < 26 then ('A' as int + v) as char
    else if v < 52 then ('a' as int + (v - 26)) as char
    else if v < 62 then ('0' as int + (v - 52)) as char
    else if v == 62 then '+'
    else '/'
  }

  /** The 6-bit value Table 1 assigns to an alphabet character. */
  function DecodeChar(c: char): (v: sextet)
    requires IsAlphabetChar(c)
    ensures EncodeChar(v) == c
  {
    if 'A' <= c <= 'Z' then c as int - 'A' as int
    else if 'a' <= c <= 'z' then c as int - 'a' as int + 26
    else if '0' <= c <= '9' then c as int - '0' as int + 52
    else if c == '+' then 62
    else 63
  }

  /** Table 1 is a bijection: decoding the character of a value gives the value back. */
  lemma DecodeEncodeChar(v: sextet)
    ensures DecodeChar(EncodeChar(v)) == v
  {
  }

  /** The four 6-bit groups of a 24-bit group, most significant first. */
  function Sextets(b0: byte, b1: byte, b2: byte): (s: seq<sextet>)
    ensures |s| == 4
  {
    [b0 / 4, b0 % 4 * 16 + b1 / 16, b1 % 16 * 4 + b2 / 64, b2 % 64]
  }

  /** The three octets of a 24-bit group given as four 6-bit groups. */
  function Octets(v0: sextet, v1: sextet, v2: sextet, v3: sextet): (o: seq<byte>)
    ensures |o| == 3
  {
    [v0 * 4 + v1 / 16, v1 % 16 * 16 + v2 / 4, v2 % 4 * 64 + v3]
  }

  /** Cutting three octets into sextets and joining them again gives the octets. */
  lemma OctetsOfSextets(b0: byte, b1: byte, b2: byte)
    ensures var s := Sextets(b0, b1, b2); Octets(s[0], s[1], s[2], s[3]) == [b0, b1, b2]
  {
    var s1, s2 := b0 % 4 * 16 + b1 / 16, b1 % 16 * 4 + b2 / 64;
    assert s1 / 16 == b0 % 4 && s1 % 16 == b1 / 16;
    assert s2 / 4 == b1 % 16 && s2 % 4 == b2 / 64;
  }

  /** Joining four sextets into octets and cutting them again gives the sextets. */
  lemma SextetsOfOctets(v0: sextet, v1: sextet, v2: sextet, v3: sextet)
    ensures var o := Octets(v0, v1, v2, v3); Sextets(o[0], o[1], o[2]) == [v0, v1, v2, v3]
  {
    var b0, b1, b2 := v0 * 4 + v1 / 16, v1 % 16 * 16 + v2 / 4, v2 % 4 * 64 + v3;
    assert b0 / 4 == v0 && b0 % 4 == v1 / 16;
    assert b1 / 16 == v1 % 16 && b1 % 16 == v2 / 4;
    assert b2 / 64 == v2 % 4 && b2 % 64 == v3;
  }

  /** Three octets become four characters (section 4, a full 24-bit group). */
  function EncodeGroup(b0: byte, b1: byte, b2: byte): string {
    var s := Sextets(b0, b1, b2);
    [EncodeChar(s[0]), EncodeChar(s[1]), EncodeChar(s[2]), EncodeChar(s[3])]
  }

  /** A final single octet: two characters and two pad characters. */
  function EncodeOne(b0: byte): string {
    var s := Sextets(b0, 0, 0);
    [EncodeChar(s[0]), EncodeChar(s[1]), '=', '=']
  }

  /** A final pair of octets: three characters and one pad character. */
  function EncodeTwo(b0: byte, b1: byte): string {
    var s := Sextets(b0, b1, 0);
    [EncodeChar(s[0]), EncodeChar(s[1]), EncodeChar(s[2]), '=']
  }

  /** `base64.b64encode(data).decode("utf-8")`. */
  function Encode(data: seq<byte>): (s: string)
    ensures |s| == 4 * ((|data| + 2) / 3)
    decreases |data|
  {
    if |data| == 0 then ""
    else if |data| == 1 then EncodeOne(data[0])
    else if |data| == 2 then EncodeTwo(data[0], data[1])
    else EncodeGroup(data[0], data[1], data[2]) + Encode(data[3..])
  }

  /** Test vectors from section 10 of RFC 4648. They check nine entries of
      Table 1 (values 5, 24, 25, 32, 38, 47, 50, 60 and 61) and both padding
      forms; the other entries rest on the body of `EncodeChar`. */
  lemma EncodeVectorF()
    ensures Encode([102]) == "Zg=="
  {
    var d: seq<byte> := [102];
    assert Encode(d) == EncodeOne(102);
    assert Sextets(102, 0, 0) == [25, 32, 0, 0];
    assert EncodeChar(25) == 'Z' && EncodeChar(32) == 'g';
    assert EncodeOne(102) == ['Z', 'g', '=', '='];
  }

  lemma EncodeVectorFo()
    ensures Encode([102, 111]) == "Zm8="
  {
    assert Sextets(102, 111, 0) == [25, 38, 60, 0];
    assert EncodeChar(25) == 'Z' && EncodeChar(38) == 'm' && EncodeChar(60) == '8';
  }

  lemma EncodeGroupFoo()
    ensures EncodeGroup(102, 111, 111) == "Zm9v"
  {
    assert Sextets(102, 111, 111) == [25, 38, 61, 47];
    assert EncodeChar(25) == 'Z' && EncodeChar(38) == 'm' && EncodeChar(61) == '9' && EncodeChar(47) == 'v';
  }

  lemma EncodeGroupBar()
    ensures EncodeGroup(98, 97, 114) == "YmFy"
  {
    assert Sextets(98, 97, 114) == [24, 38, 5, 50];
    assert EncodeChar(24) == 'Y' && EncodeChar(38) == 'm' && EncodeChar(5) == 'F' && EncodeChar(50) == 'y';
  }

  lemma EncodeVectorFoo()
    ensures Encode([102, 111, 111]) == "Zm9v"
  {
    var d: seq<byte> := [102, 111, 111];
    EncodeSplit(d);
    assert d[3..] == [];
    EncodeGroupFoo();
    assert "Zm9v" + "" == "Zm9v";
  }

  lemma EncodeVectorFoobar()
    ensures Encode([102, 111, 111, 98, 97, 114]) == "Zm9vYmFy"
  {
    var d: seq<byte> := [102, 111, 111, 98, 97, 114];
    var e: seq<byte> := [98, 97, 114];
    EncodeSplit(d);
    assert d[3..] == e;
    EncodeSplit(e);
    assert e[3..] == [];
    EncodeGroupFoo();
    EncodeGroupBar();
    assert "YmFy" + "" == "YmFy";
    assert "Zm9v" + "YmFy" == "Zm9vYmFy";
  }

  /** Decodes one quantum of four characters; padding is accepted only in the
      final quantum, and only with zero pad bits, so that exactly the strings
      `Encode` produces are accepted. */
  function DecodeQuantum(q: string, final: bool): (r: Option<seq<byte>>)
    requires |q| == 4
    ensures r.Some? ==> 1 <= |r.value| <= 3
    ensures r.Some? && |r.value| < 3 ==> final
  {
    if IsAlphabetChar(q[0]) && IsAlphabetChar(q[1]) && IsAlphabetChar(q[2]) && IsAlphabetChar(q[3]) then
      Some(Octets(DecodeChar(q[0]), DecodeChar(q[1]), DecodeChar(q[2]), DecodeChar(q[3])))
    else if final && IsAlphabetChar(q[0]) && IsAlphabetChar(q[1]) && q[2] == '=' && q[3] == '=' then
      if DecodeChar(q[1]) % 16 == 0 then Some(Octets(DecodeChar(q[0]), DecodeChar(q[1]), 0, 0)[..1]) else None
    else if final && IsAlphabetChar(q[0]) && IsAlphabetChar(q[1]) && IsAlphabetChar(q[2]) && q[3] == '=' then
      if DecodeChar(q[2]) % 4 == 0 then Some(Octets(DecodeChar(q[0]), DecodeChar(q[1]), DecodeChar(q[2]), 0)[..2]) else None
    else None
  }

  /** Strict decoding: `None` for a length that is not a multiple of four, a
      character outside the alphabet, misplaced padding or non-zero pad bits. */
  function Decode(s: string): (r: Option<seq<byte>>)
    ensures r.Some? ==> |s| % 4 == 0 && |r.value| <= |s| / 4 * 3
    decreases |s|
  {
    if |s| == 0 then Some([])
    else if |s| < 4 then None
    else
      match DecodeQuantum(s[..4], |s| == 4)
      case None => None
      case Some(head) =>
        match Decode(s[4..])
        case None => None
        case Some(tail) => Some(head + tail)
  }

  lemma DecodeGroup(b0: byte, b1: byte, b2: byte, final: bool)
    ensures DecodeQuantum(EncodeGroup(b0, b1, b2), final) == Some([b0, b1, b2])
  {
    var s := Sextets(b0, b1, b2);
    DecodeEncodeChar(s[0]);
    DecodeEncodeChar(s[1]);
    DecodeEncodeChar(s[2]);
    DecodeEncodeChar(s[3]);
    OctetsOfSextets(b0, b1, b2);
  }

  lemma DecodeOne(b0: byte)
    ensures DecodeQuantum(EncodeOne(b0), true) == Some([b0])
  {
    var q, s := EncodeOne(b0), Sextets(b0, 0, 0);
    DecodeEncodeChar(s[0]);
    DecodeEncodeChar(s[1]);
    assert !IsAlphabetChar(q[2]) && q[2] == '=' && q[3] == '=';
    assert DecodeChar(q[0]) == s[0] && DecodeChar(q[1]) == s[1];
    assert s[1] % 16 == 0 && s[2] == 0 && s[3] == 0;
    OctetsOfSextets(b0, 0, 0);
    assert Octets(s[0], s[1], 0, 0) == [b0, 0, 0];
    assert [b0, 0, 0][..1] == [b0];
  }

  lemma DecodeTwo(b0: byte, b1: byte)
    ensures DecodeQuantum(EncodeTwo(b0, b1), true) == Some([b0, b1])
  {
    var q, s := EncodeTwo(b0, b1), Sextets(b0, b1, 0);
    DecodeEncodeChar(s[0]);
    DecodeEncodeChar(s[1]);
    DecodeEncodeChar(s[2]);
    assert !IsAlphabetChar(q[3]) && q[3] == '=';
    assert DecodeChar(q[0]) == s[0] && DecodeChar(q[1]) == s[1] && DecodeChar(q[2]) == s[2];
    assert s[2] % 4 == 0 && s[3] == 0;
    OctetsOfSextets(b0, b1, 0);
    assert Octets(s[0], s[1], s[2], 0) == [b0, b1, 0];
    assert [b0, b1, 0][..2] == [b0, b1];
  }

  /** Decoding proceeds quantum by quantum. */
  lemma DecodeCons(q: string, rest: string, head: seq<byte>, tail: seq<byte>)
    requires |q| == 4
    requires DecodeQuantum(q, |rest| == 0) == Some(head)
    requires Decode(rest) == Some(tail)
    ensures Decode(q + rest) == Some(head + tail)
  {
    var s := q + rest;
    assert s[..4] == q && s[4..] == rest;
  }

  /** The round trips for a final quantum with padding. */
  lemma DecodeEncodeOne(b0: byte)
    ensures Decode(EncodeOne(b0)) == Some([b0])
  {
    DecodeOne(b0);
    DecodeCons(EncodeOne(b0), "", [b0], []);
    assert EncodeOne(b0) + "" == EncodeOne(b0);
    assert [b0] + [] == [b0];
  }

  lemma DecodeEncodeTwo(b0: byte, b1: byte)
    ensures Decode(EncodeTwo(b0, b1)) == Some([b0, b1])
  {
    DecodeTwo(b0, b1);
    DecodeCons(EncodeTwo(b0, b1), "", [b0, b1], []);
    assert EncodeTwo(b0, b1) + "" == EncodeTwo(b0, b1);
    assert [b0, b1] + [] == [b0, b1];
  }

  lemma EncodeSplit(data: seq<byte>)
    requires |data| >= 3
    ensures Encode(data) == EncodeGroup(data[0], data[1], data[2]) + Encode(data[3..])
  {
  }

  lemma SplitGroup(data: seq<byte>)
    requires |data| >= 3
    ensures data == [data[0], data[1], data[2]] + data[3..]
  {
  }

  /** A full group in front of an encoding that decodes correctly. */
  lemma DecodeEncodeStep(data: seq<byte>)
    requires |data| >= 3
    requires Decode(Encode(data[3..])) == Some(data[3..])
    ensures Decode(Encode(data)) == Some(data)
  {
    var rest := Encode(data[3..]);
    EncodeSplit(data);
    SplitGroup(data);
    DecodeGroup(data[0], data[1], data[2], |rest| == 0);
    DecodeCons(EncodeGroup(data[0], data[1], data[2]), rest, [data[0], data[1], data[2]], data[3..]);
  }

  /** Decoding an encoding gives the octets back. */
  lemma {:induction false} DecodeEncode(data: seq<byte>)
    ensures Decode(Encode(data)) == Some(data)
    decreases |data|
  {
    if |data| == 0 {
    } else if |data| == 1 {
      DecodeEncodeOne(data[0]);
      assert data == [data[0]];
    } else if |data| == 2 {
      DecodeEncodeTwo(data[0], data[1]);
      assert data == [data[0], data[1]];
    } else {
      DecodeEncode(data[3..]);
      DecodeEncodeStep(data);
    }
  }

  /** The octets four sextets join into encode back to those sextets' characters. */
  lemma EncodeGroupOfOctets(h: seq<byte>, v0: sextet, v1: sextet, v2: sextet, v3: sextet)
    requires h == Octets(v0, v1, v2, v3)
    ensures |h| == 3
    ensures EncodeGroup(h[0], h[1], h[2]) == [EncodeChar(v0), EncodeChar(v1), EncodeChar(v2), EncodeChar(v3)]
  {
    SextetsOfOctets(v0, v1, v2, v3);
  }

  /** A quantum of four alphabet characters decodes to the octets of its sextets. */
  lemma DecodeFullQuantum(q: string, final: bool)
    requires |q| == 4
    requires IsAlphabetChar(q[0]) && IsAlphabetChar(q[1]) && IsAlphabetChar(q[2]) && IsAlphabetChar(q[3])
    ensures DecodeQuantum(q, final) == Some(Octets(DecodeChar(q[0]), DecodeChar(q[1]), DecodeChar(q[2]), DecodeChar(q[3])))
  {
  }

  /** A string of four characters is the sequence of its characters. */
  lemma FourChars(q: string)
    requires |q| == 4
    ensures q == [q[0], q[1], q[2], q[3]]
  {
  }

  /** A full quantum re-encodes to itself. */
  lemma EncodeDecodeFull(q: string, final: bool, h: seq<byte>)
    requires |q| == 4 && DecodeQuantum(q, final) == Some(h)
    requires IsAlphabetChar(q[0]) && IsAlphabetChar(q[1]) && IsAlphabetChar(q[2]) && IsAlphabetChar(q[3])
    ensures |h| == 3 && EncodeGroup(h[0], h[1], h[2]) == q
  {
    DecodeFullQuantum(q, final);
    EncodeGroupOfOctets(h, DecodeChar(q[0]), DecodeChar(q[1]), DecodeChar(q[2]), DecodeChar(q[3]));
    FourChars(q);
  }

  /** A quantum with two pad characters re-encodes to itself. */
  lemma EncodeDecodeOne(q: string, final: bool, h: seq<byte>)
    requires |q| == 4 && DecodeQuantum(q, final) == Some(h)
    requires IsAlphabetChar(q[0]) && IsAlphabetChar(q[1]) && q[2] == '=' && q[3] == '='
    ensures |h| == 1 && EncodeOne(h[0]) == q
  {
    var v0, v1 := DecodeChar(q[0]), DecodeChar(q[1]);
    assert !IsAlphabetChar(q[2]);
    var o := Octets(v0, v1, 0, 0);
    assert v1 % 16 == 0 && h == o[..1];
    SextetsOfOctets(v0, v1, 0, 0);
    assert o[1] == 0 && o[2] == 0;
    assert Sextets(h[0], 0, 0) == [v0, v1, 0, 0];
    assert q == [EncodeChar(v0), EncodeChar(v1), '=', '='];
  }

  /** A quantum with one pad character re-encodes to itself. */
  lemma EncodeDecodeTwo(q: string, final: bool, h: seq<byte>)
    requires |q| == 4 && DecodeQuantum(q, final) == Some(h)
    requires IsAlphabetChar(q[0]) && IsAlphabetChar(q[1]) && IsAlphabetChar(q[2]) && q[3] == '='
    ensures |h| == 2 && EncodeTwo(h[0], h[1]) == q
  {
    var v0, v1, v2 := DecodeChar(q[0]), DecodeChar(q[1]), DecodeChar(q[2]);
    assert !IsAlphabetChar(q[3]);
    var o := Octets(v0, v1, v2, 0);
    assert v2 % 4 == 0 && h == o[..2];
    SextetsOfOctets(v0, v1, v2, 0);
    assert o[2] == 0;
    assert Sextets(h[0], h[1], 0) == [v0, v1, v2, 0];
    assert q == [EncodeChar(v0), EncodeChar(v1), EncodeChar(v2), '='];
  }

  /** A quantum that decodes is the encoding of what it decodes to. */
  lemma EncodeDecodeQuantum(q: string, final: bool, h: seq<byte>)
    requires |q| == 4 && DecodeQuantum(q, final) == Some(h)
    ensures |h| == 3 ==> EncodeGroup(h[0], h[1], h[2]) == q
    ensures |h| == 2 ==> EncodeTwo(h[0], h[1]) == q
    ensures |h| == 1 ==> EncodeOne(h[0]) == q
  {
    if IsAlphabetChar(q[0]) && IsAlphabetChar(q[1]) && IsAlphabetChar(q[2]) && IsAlphabetChar(q[3]) {
      EncodeDecodeFull(q, final, h);
    } else if IsAlphabetChar(q[0]) && IsAlphabetChar(q[1]) && q[2] == '=' && q[3] == '=' {
      EncodeDecodeOne(q, final, h);
    } else {
      EncodeDecodeTwo(q, final, h);
    }
  }

  /** Decoding a string into its first quantum and the rest. */
  lemma DecodeSplit(s: string, d: seq<byte>)
    requires |s| >= 4 && Decode(s) == Some(d)
    ensures DecodeQuantum(s[..4], |s| == 4).Some?
    ensures Decode(s[4..]).Some?
    ensures d == DecodeQuantum(s[..4], |s| == 4).value + Decode(s[4..]).value
  {
  }

  /** The decoder accepts only what the encoder produces: a string that
      decodes is the encoding of its octets. */
  lemma {:induction false} EncodeDecode(s: string, d: seq<byte>)
    requires Decode(s) == Some(d)
    ensures Encode(d) == s
    decreases |s|
  {
    if |s| != 0 {
      DecodeSplit(s, d);
      var h, t := DecodeQuantum(s[..4], |s| == 4).value, Decode(s[4..]).value;
      EncodeDecodeQuantum(s[..4], |s| == 4, h);
      EncodeDecode(s[4..], t);
      if |h| == 3 {
        EncodeSplit(d);
        assert d[..3] == h && d[3..] == t;
      } else {
        assert |s| == 4 && t == [] && d == h;
      }
      assert s == s[..4] + s[4..];
    }
  }
}

=== FILE: common.dfy ===
/** Shared vocabulary of the model: bytes, optional values, results and the
    abstract upload store. */
module Common {

  /** One octet, as Python's `bytes` elements are. */
  type byte = x: int | 0 <= x < 256

  /** A value that may be missing (Python's `None`). */
  datatype Option<+T> = None | Some(value: T)

  /** The outcome of a call that may raise: a value, or the message of the
      exception it raised. */
  datatype Result<+T> = Ok(value: T) | Err(message: string)

  /** The upload directory as a map from path to the bytes stored there. */
  type Store = map<string, seq<byte>>
}

=== FILE: predict.dfy ===
/** The `POST /model/predict` handler (app/routers/predict.py), as a
    function from the request and its environment to a response and the
    resulting store. The authentication dependency is taken as passed. */
module Predict {
  import opened Common
  import Text
  import Utils
  import Services
  import Base64

  /** An uploaded file: the client's file name and the full contents
      `await file.read()` returns. */
  datatype Upload = Upload(filename: string, content: seq<byte>)

  /** The JSON values the success body holds. */
  datatype Json = JBool(b: bool) | JInt(i: int) | JStr(s: string)

  /** What the handler returns or raises: the dict it returns (`Ok200`), or
      the status and detail of the `HTTPException` it raises. FastAPI's own
      request and response validation around the handler is not part of it. */
  datatype Response = Ok200(body: map<string, Json>) | HttpError(status: int, detail: string)

  /** The effects the handler performs, in order: reading the upload,
      naming it by its content, writing it, running the detector on it. */
  datatype Effect = ReadUpload | HashUpload(name: string) | WriteFile(path: string, bytes: seq<byte>) | RunInference(path: string)

  /** The response, the store afterwards and the effects performed. */
  datatype Outcome = Outcome(response: Response, store: Store, trace: seq<Effect>)

  /** Opening and writing a file at a path: `Some(message)` when it raises. */
  type Writer = (string, seq<byte>) -> Option<string>

  /** `model_predict` run in the thread pool, on the store as it is after
      the write. */
  type Predictor = (Store, string) -> Result<Services.Prediction>

  /** `os.path.join(folder, name)` for a name that is not absolute. */
  function JoinPath(folder: string, name: string): (p: string)
    requires |name| > 0 && name[0] != '/'
    ensures |p| >= |name| && p[|p| - |name|..] == name
    ensures folder == "" ==> p == name
    ensures folder != "" ==> p[..|p| - |name|] == folder || p[..|p| - |name|] == folder + "/"
    ensures folder != "" && folder[|folder| - 1] == '/' ==> p == folder + name
    ensures folder != "" && folder[|folder| - 1] != '/' ==> p == folder + "/" + name
  {
    if folder == "" || folder[|folder| - 1] == '/' then folder + name
    else folder + "/" + name
  }

  /** The body of the success response, with the keys the handler writes. */
  function SuccessBody(p: Services.Prediction, storedName: string): map<string, Json> {
    map["success" := JBool(true),
        "num_objects" := JInt(p.numObjects),
        "image_base64" := JStr(p.imageBase64),
        "image_file_name" := JStr(storedName)]
  }

  const NoFileDetail: string := "No file provided."
  const UnsupportedDetail: string := "Unsupported file type."
  const SavePrefix: string := "Error saving file: "
  const ProcessPrefix: string := "Error processing file: "

  /** The name the upload is stored under: its content address. */
  function StoredName(sha: Utils.Sha256, u: Upload): (name: string)
    requires Utils.AllowedFile(u.filename)
    ensures Utils.FileHash(sha, u.content, u.filename) == Some(name)
    ensures |name| > 65 && name[0] != '/'
  {
    var n := Utils.FileHash(sha, u.content, u.filename).value;
    assert Utils.IsLowerHexChar(n[..64][0]);
    n
  }

  /** The path the upload is written to: the upload folder joined with the
      content address. */
  function StoredPath(uploadFolder: string, sha: Utils.Sha256, u: Upload): (path: string)
    requires Utils.AllowedFile(u.filename)
  {
    JoinPath(uploadFolder, StoredName(sha, u))
  }

  /** The upload is there and passes the extension check. */
  predicate Accepted(file: Option<Upload>) {
    file.Some? && Utils.AllowedFile(file.value.filename)
  }

  /** Every inference runs on a path whose write immediately precedes it and
      whose bytes are in the final store. */
  predicate PersistedBeforeInference(o: Outcome) {
    forall k :: 0 <= k < |o.trace| && o.trace[k].RunInference? ==>
      && k > 0 && o.trace[k - 1].WriteFile?
      && o.trace[k - 1].path == o.trace[k].path
      && o.trace[k].path in o.store
      && o.store[o.trace[k].path] == o.trace[k - 1].bytes
  }

  /** The `try` around `model_predict`, once the upload is on disk at
      `path`: a raised exception becomes a 500 and the file stays. */
  function RunModel(name: string, path: string, predict: Predictor, stored: Store, effects: seq<Effect>): (o: Outcome)
    requires path in stored
    ensures o.store == stored
    ensures o.trace == effects + [RunInference(path)]
    ensures predict(stored, path).Err? ==> o.response == HttpError(500, ProcessPrefix + predict(stored, path).message)
    ensures predict(stored, path).Ok? ==>
      && o.response.Ok200?
      && o.response.body.Keys == {"success", "num_objects", "image_base64", "image_file_name"}
      && o.response.body["success"] == JBool(true)
      && o.response.body["num_objects"] == JInt(predict(stored, path).value.numObjects)
      && o.response.body["image_base64"] == JStr(predict(stored, path).value.imageBase64)
      && o.response.body["image_file_name"] == JStr(name)
  {
    match predict(stored, path)
    case Err(e) => Outcome(HttpError(500, ProcessPrefix + e), stored, effects + [RunInference(path)])
    case Ok(p) => Outcome(Ok200(SuccessBody(p, name)), stored, effects + [RunInference(path)])
  }

  /** The effects up to and including the write. */
  function WriteEffects(name: string, path: string, bytes: seq<byte>): seq<Effect> {
    [ReadUpload, HashUpload(name), WriteFile(path, bytes)]
  }

  /** An accepted upload: read, named by its content, written under that
      name, then handed to the detector only if the write succeeded. */
  function Persist(u: Upload, uploadFolder: string, sha: Utils.Sha256, write: Writer, predict: Predictor, store: Store): (o: Outcome)
    requires Utils.AllowedFile(u.filename)
    ensures var name, path := StoredName(sha, u), StoredPath(uploadFolder, sha, u);
      var effects := WriteEffects(name, path, u.content);
      && (write(path, u.content).Some? ==>
            o == Outcome(HttpError(500, SavePrefix + write(path, u.content).value), store, effects))
      && (write(path, u.content).None? ==>
            o == RunModel(name, path, predict, store[path := u.content], effects))
  {
    var name := StoredName(sha, u);
    var path := JoinPath(uploadFolder, name);
    var effects := WriteEffects(name, path, u.content);
    match write(path, u.content)
    case Some(e) => Outcome(HttpError(500, SavePrefix + e), store, effects)
    case None => RunModel(name, path, predict, store[path := u.content], effects)
  }

  /** The handler. A missing file or a disallowed extension is rejected with
      a 400 before anything is read, written or inferred. */
  function HandlePredict(
    file: Option<Upload>, uploadFolder: string, sha: Utils.Sha256,
    write: Writer, predict: Predictor, store: Store): (o: Outcome)
    ensures file.None? ==> o == Outcome(HttpError(400, NoFileDetail), store, [])
    ensures file.Some? && !Utils.AllowedFile(file.value.filename) ==>
      o == Outcome(HttpError(400, UnsupportedDetail), store, [])
    ensures Accepted(file) ==> o == Persist(file.value, uploadFolder, sha, write, predict, store)
  {
    if file.None? then Outcome(HttpError(400, NoFileDetail), store, [])
    else if !Utils.AllowedFile(file.value.filename) then Outcome(HttpError(400, UnsupportedDetail), store, [])
    else Persist(file.value, uploadFolder, sha, write, predict, store)
  }

  /** Once the upload is accepted, every failure is a server error. */
  lemma PersistFailsWith500(u: Upload, uploadFolder: string, sha: Utils.Sha256, write: Writer, predict: Predictor, store: Store)
    requires Utils.AllowedFile(u.filename)
    ensures var r := Persist(u, uploadFolder, sha, write, predict, store).response;
      r.HttpError? ==> r.status == 500
  {
    var name, path := StoredName(sha, u), StoredPath(uploadFolder, sha, u);
    if write(path, u.content).None? {
      var r := RunModel(name, path, predict, store[path := u.content], WriteEffects(name, path, u.content)).response;
      assert r.HttpError? ==> r.status == 500;
    }
  }

  /** Exactly the client-side faults are answered with 400; everything else
      that fails is a 500. */
  lemma StatusClassification(
    file: Option<Upload>, uploadFolder: string, sha: Utils.Sha256,
    write: Writer, predict: Predictor, store: Store)
    ensures var o := HandlePredict(file, uploadFolder, sha, write, predict, store);
      && ((o.response.HttpError? && o.response.status == 400) <==> !Accepted(file))
      && (o.response.HttpError? ==> o.response.status in {400, 500})
  {
    if Accepted(file) {
      PersistFailsWith500(file.value, uploadFolder, sha, write, predict, store);
    }
  }

  /** A failed write ends the request before any inference. */
  lemma NoInferenceAfterFailedWrite(r: Response, store: Store, name: string, path: string, bytes: seq<byte>)
    ensures PersistedBeforeInference(Outcome(r, store, WriteEffects(name, path, bytes)))
  {
  }

  /** After a successful write the inference runs on the path just written. */
  lemma InferenceOnWrittenPath(name: string, path: string, bytes: seq<byte>, predict: Predictor, stored: Store)
    requires path in stored && stored[path] == bytes
    ensures PersistedBeforeInference(RunModel(name, path, predict, stored, WriteEffects(name, path, bytes)))
  {
    var o := RunModel(name, path, predict, stored, WriteEffects(name, path, bytes));
    assert o.trace == [ReadUpload, HashUpload(name), WriteFile(path, bytes), RunInference(path)];
  }

  /** The detector never runs on a file that has not been written, and the
      file it ran on is in the store afterwards, whatever the detector did. */
  lemma InferenceAfterPersist(
    file: Option<Upload>, uploadFolder: string, sha: Utils.Sha256,
    write: Writer, predict: Predictor, store: Store)
    ensures PersistedBeforeInference(HandlePredict(file, uploadFolder, sha, write, predict, store))
  {
    if Accepted(file) {
      var u := file.value;
      var name, path := StoredName(sha, u), StoredPath(uploadFolder, sha, u);
      var o := Persist(u, uploadFolder, sha, write, predict, store);
      if write(path, u.content).None? {
        InferenceOnWrittenPath(name, path, u.content, predict, store[path := u.content]);
      } else {
        NoInferenceAfterFailedWrite(o.response, store, name, path, u.content);
      }
    }
  }

  /** The bytes under the stored path are the bytes that were hashed: the
      file's name is the content address of the file's contents. */
  lemma StoredFileIsContentAddressed(
    u: Upload, uploadFolder: string, sha: Utils.Sha256,
    write: Writer, predict: Predictor, store: Store)
    requires Utils.AllowedFile(u.filename)
    requires write(StoredPath(uploadFolder, sha, u), u.content).None?
    ensures var o, path := HandlePredict(Some(u), uploadFolder, sha, write, predict, store), StoredPath(uploadFolder, sha, u);
      && path in o.store
      && Utils.FileHash(sha, o.store[path], u.filename) == Some(StoredName(sha, u))
      && Utils.ParseStoredName(StoredName(sha, u)) == Some((sha(o.store[path]), Utils.Extension(u.filename).value))
      && path[|path| - |StoredName(sha, u)|..] == StoredName(sha, u)
  {
    Utils.ParseFileHash(sha, u.content, u.filename);
  }

  /** Deduplication: uploads with the same bytes whose names agree up to
      letter case are written to the same path. */
  lemma SameContentSamePath(uploadFolder: string, sha: Utils.Sha256, u1: Upload, u2: Upload)
    requires Utils.AllowedFile(u1.filename) && Utils.AllowedFile(u2.filename)
    requires u1.content == u2.content && Text.Lower(u1.filename) == Text.Lower(u2.filename)
    ensures StoredPath(uploadFolder, sha, u1) == StoredPath(uploadFolder, sha, u2)
  {
    Utils.FileHashDeterministic(sha, u1.content, u1.filename, u2.content, u2.filename);
  }

  /** Re-uploading an image after a good first write changes nothing: the
      second request, whatever its write and inference do, either writes the
      same bytes to the same path or fails before changing the store. */
  lemma ReuploadIdempotent(
    u: Upload, uploadFolder: string, sha: Utils.Sha256,
    write1: Writer, predict1: Predictor, write2: Writer, predict2: Predictor, store: Store)
    requires Utils.AllowedFile(u.filename)
    requires write1(StoredPath(uploadFolder, sha, u), u.content).None?
    ensures var o1 := HandlePredict(Some(u), uploadFolder, sha, write1, predict1, store);
      HandlePredict(Some(u), uploadFolder, sha, write2, predict2, o1.store).store == o1.store
  {
    var name, path := StoredName(sha, u), StoredPath(uploadFolder, sha, u);
    var o1 := Persist(u, uploadFolder, sha, write1, predict1, store);
    var o2 := Persist(u, uploadFolder, sha, write2, predict2, o1.store);
    assert Accepted(Some(u));
    assert o1.store == store[path := u.content];
    if write2(path, u.content).None? {
      assert o2.store == o1.store[path := u.content];
      assert o1.store[path := u.content] == o1.store;
    } else {
      assert o2.store == o1.store;
    }
  }

  /** The fields of the declared response model `PredictResponse`. */
  const PredictResponseFields: set<string> :=
    {"success", "num_objects", "bounding_objects", "image_base64", "image_file_name"}

  /** Every success carries exactly the four keys the handler writes. */
  lemma SuccessKeys(
    file: Option<Upload>, uploadFolder: string, sha: Utils.Sha256,
    write: Writer, predict: Predictor, store: Store)
    requires HandlePredict(file, uploadFolder, sha, write, predict, store).response.Ok200?
    ensures HandlePredict(file, uploadFolder, sha, write, predict, store).response.body.Keys
      == {"success", "num_objects", "image_base64", "image_file_name"}
  {
    assert Accepted(file);
    var u := file.value;
    var name, path := StoredName(sha, u), StoredPath(uploadFolder, sha, u);
    assert write(path, u.content).None?;
    assert HandlePredict(file, uploadFolder, sha, write, predict, store)
      == RunModel(name, path, predict, store[path := u.content], WriteEffects(name, path, u.content));
  }

  /** The four keys the handler writes fall short of the declared model by
      `bounding_objects` alone. */
  lemma MissingField()
    ensures PredictResponseFields - {"success", "num_objects", "image_base64", "image_file_name"} == {"bounding_objects"}
    ensures {"success", "num_objects", "image_base64", "image_file_name"} < PredictResponseFields
  {
    assert "bounding_objects"[0] != "success"[0];
    assert "bounding_objects"[0] != "num_objects"[0];
    assert "bounding_objects"[0] != "image_base64"[0];
    assert "bounding_objects"[0] != "image_file_name"[0];
  }

  /** The success body is not an instance of the declared response model:
      it lacks the required `bounding_objects` field, and that is the only
      field it lacks. */
  lemma SuccessBodyLacksBoundingObjects(
    file: Option<Upload>, uploadFolder: string, sha: Utils.Sha256,
    write: Writer, predict: Predictor, store: Store)
    requires HandlePredict(file, uploadFolder, sha, write, predict, store).response.Ok200?
    ensures var body := HandlePredict(file, uploadFolder, sha, write, predict, store).response.body;
      && "bounding_objects" !in body
      && PredictResponseFields - body.Keys == {"bounding_objects"}
      && body.Keys < PredictResponseFields
  {
    SuccessKeys(file, uploadFolder, sha, write, predict, store);
    MissingField();
  }

  /** With `model_predict` as the predictor, a success reports the number of
      boxes in the first result and an image string that decodes to
      the PNG of the channel-reversed rendering. */
  lemma EndToEnd(
    u: Upload, uploadFolder: string, sha: Utils.Sha256, write: Writer,
    detect: Services.Detector, png: Services.PngEncoder, store: Store)
    requires Utils.AllowedFile(u.filename)
    requires write(StoredPath(uploadFolder, sha, u), u.content).None?
    ensures var path := StoredPath(uploadFolder, sha, u);
      var stored := store[path := u.content];
      var predict: Predictor := (st, p) => Services.ModelPredict(detect, png, st, p);
      var o := HandlePredict(Some(u), uploadFolder, sha, write, predict, store);
      match detect(stored, path)
      case Err(e) => o.response == HttpError(500, ProcessPrefix + e)
      case Ok(results) =>
        && o.response.Ok200?
        && (Services.NothingDetected(results) ==>
              o.response.body["num_objects"] == JInt(0) && o.response.body["image_base64"] == JStr(""))
        && (!Services.NothingDetected(results) ==>
              && o.response.body["num_objects"] == JInt(|results[0].boxes|)
              && o.response.body["image_base64"].JStr?
              && Base64.Decode(o.response.body["image_base64"].s) == Some(Services.AnnotatedPng(results, png)))
  {
  }
}

=== FILE: services.dfy ===
/** Shaping of a detector's output into the pair the upload endpoint returns
    (app/model/services.py). The detector, its `plot` rendering and PNG
    encoding are not modelled; they are parameters. */
module Services {
  import opened Common
  import Base64

  /** One pixel of a rendered frame: three 8-bit channels. */
  type Pixel = p: seq<byte> | |p| == 3 witness [0, 0, 0]

  /** A rendered frame as rows of pixels: the (height, width, 3) uint8 array. */
  type Image = seq<seq<Pixel>>

  /** Every row has the same width, as a numpy array's rows do. */
  predicate Rectangular(img: Image) {
    forall i, j :: 0 <= i < |img| && 0 <= j < |img| ==> |img[i]| == |img[j]|
  }

  /** Reverses the channel order of one pixel: (c0, c1, c2) becomes (c2, c1, c0). */
  function SwapChannels(p: Pixel): (q: Pixel)
    ensures q[0] == p[2] && q[1] == p[1] && q[2] == p[0]
  {
    [p[2], p[1], p[0]]
  }

  /** `rendered[..., ::-1]`: the frame with the channel axis reversed, which
      turns the renderer's BGR order into the RGB order PIL expects. */
  function ReverseChannels(img: Image): (r: Image)
    ensures |r| == |img|
    ensures forall i :: 0 <= i < |img| ==> |r[i]| == |img[i]|
    ensures forall i, j :: 0 <= i < |img| && 0 <= j < |img[i]| ==>
      r[i][j][0] == img[i][j][2] && r[i][j][1] == img[i][j][1] && r[i][j][2] == img[i][j][0]
  {
    seq(|img|, i requires 0 <= i < |img| =>
      seq(|img[i]|, j requires 0 <= j < |img[i]| => SwapChannels(img[i][j])))
  }

  /** Reversing the channels twice gives the frame back. */
  lemma ReverseChannelsInvolution(img: Image)
    ensures ReverseChannels(ReverseChannels(img)) == img
  {
    var r := ReverseChannels(ReverseChannels(img));
    forall i | 0 <= i < |img|
      ensures r[i] == img[i]
    {
      forall j | 0 <= j < |img[i]|
        ensures r[i][j] == img[i][j]
      {
        assert r[i][j][0] == img[i][j][0];
      }
    }
  }

  /** The frame keeps its height and width. */
  lemma ReverseChannelsKeepsShape(img: Image)
    requires Rectangular(img)
    ensures Rectangular(ReverseChannels(img))
  {
  }

  /** One detected box; its class id is kept, its coordinates and confidence
      (floats) are not modelled. */
  datatype Box = Box(cls: int)

  /** One element of the list `model.predict` returns: the detected boxes
      and the BGR frame `plot(labels=False)` renders for them. */
  datatype Detection = Detection(boxes: seq<Box>, plotted: Image)

  /** What `model_predict` returns: `(num_objects, img_base64)`. */
  datatype Prediction = Prediction(numObjects: int, imageBase64: string)

  /** The detector: runs on the file stored at a path; may raise. */
  type Detector = (Store, string) -> Result<seq<Detection>>

  /** PIL's `Image.fromarray(...).save(buffer, format="PNG")`. */
  type PngEncoder = Image -> seq<byte>

  /** True when `model_predict` takes its early exit. */
  predicate NothingDetected(results: seq<Detection>) {
    |results| == 0 || |results[0].boxes| == 0
  }

  /** The bytes `model_predict` Base64-encodes: the PNG of the first result's
      rendering with its channels reversed. */
  function AnnotatedPng(results: seq<Detection>, png: PngEncoder): seq<byte>
    requires |results| > 0
  {
    png(ReverseChannels(results[0].plotted))
  }

  /** The shaping part of `model_predict`, after the detector has run. */
  function ShapePrediction(results: seq<Detection>, png: PngEncoder): (r: Prediction)
    ensures NothingDetected(results) ==> r == Prediction(0, "")
    ensures !NothingDetected(results) ==>
      && r.numObjects == |results[0].boxes| >= 1
      && Base64.Decode(r.imageBase64) == Some(AnnotatedPng(results, png))
      && |r.imageBase64| == 4 * ((|AnnotatedPng(results, png)| + 2) / 3)
  {
    if NothingDetected(results) then Prediction(0, "")
    else
      var bytes := AnnotatedPng(results, png);
      Base64.DecodeEncode(bytes);
      Prediction(|results[0].boxes|, Base64.Encode(bytes))
  }

  /** `model_predict(image_path)`: an exception from the detector propagates. */
  function ModelPredict(detect: Detector, png: PngEncoder, store: Store, path: string): (r: Result<Prediction>)
    ensures detect(store, path).Err? ==> r == Err(detect(store, path).message)
    ensures detect(store, path).Ok? ==> r.Ok? && r.value == ShapePrediction(detect(store, path).value, png)
  {
    match detect(store, path)
    case Err(e) => Err(e)
    case Ok(results) => Ok(ShapePrediction(results, png))
  }

  /** The image string is empty exactly when nothing was counted, provided
      PNG encoding never yields an empty buffer. */
  lemma ImageEmptyIffNoObjects(results: seq<Detection>, png: PngEncoder)
    requires forall img :: |png(img)| > 0
    ensures var r := ShapePrediction(results, png);
      r.imageBase64 == "" <==> r.numObjects == 0
  {
    if !NothingDetected(results) {
      assert |AnnotatedPng(results, png)| > 0;
    }
  }
}

=== FILE: text.dfy ===
/** The few string operations Python's `str` provides that the upload
    validation relies on: `str.lower()` and `str.rsplit(sep, 1)`. */
module Text {
  import opened Common

  predicate IsUpper(c: char) {
    'A' <= c <= 'Z'
  }

  /** Lower-cases one character; only ASCII letters change. */
  function LowerChar(c: char): (r: char)
    ensures IsUpper(c) ==> r as int == c as int + 32
    ensures !IsUpper(c) ==> r == c
  {
    if IsUpper(c) then (c as int + 32) as char else c
  }

  /** `s.lower()`, restricted to ASCII case mapping. */
  function Lower(s: string): (r: string)
    ensures |r| == |s|
    ensures forall i :: 0 <= i < |s| ==> r[i] == LowerChar(s[i])
  {
    seq(|s|, i requires 0 <= i < |s| => LowerChar(s[i]))
  }

  /** The index of the last occurrence of `c` in `s`, if any. */
  function LastIndexOf(s: string, c: char): (r: Option<nat>)
    ensures r.None? <==> c !in s
    ensures r.Some? ==> r.value < |s| && s[r.value] == c && c !in s[r.value + 1..]
    decreases |s|
  {
    if |s| == 0 then None
    else if s[|s| - 1] == c then Some(|s| - 1)
    else LastIndexOf(s[..|s| - 1], c)
  }

  /** `s.rsplit(sep, 1)` when it yields two parts: the text before and the
      text after the last `sep`; `None` when `sep` does not occur, in which
      case Python's result has a single part. */
  function RSplitOnce(s: string, sep: char): (r: Option<(string, string)>)
    ensures r.None? <==> sep !in s
    ensures r.Some? ==> s == r.value.0 + [sep] + r.value.1 && sep !in r.value.1
  {
    match LastIndexOf(s, sep)
    case None => None
    case Some(i) => Some((s[..i], s[i + 1..]))
  }

  /** The split point is unique: any way of writing `s` as a prefix, `sep` and a
      tail free of `sep` is the one `RSplitOnce` finds. */
  lemma RSplitOnceUnique(s: string, sep: char, pre: string, post: string)
    requires s == pre + [sep] + post && sep !in post
    ensures RSplitOnce(s, sep) == Some((pre, post))
  {
    var i := LastIndexOf(s, sep).value;
    assert s[|pre|] == sep;
    assert i == |pre|;
    assert s[..i] == pre;
    assert s[i + 1..] == post;
  }
}

=== FILE: utils.dfy ===
/** Upload validation and content addressing (app/utils.py). */
module Utils {
  import opened Common
  import opened Text

  /** The extensions the upload endpoint accepts, already lower-case. */
  const AllowedExtensions: set<string> := {"png", "jpg", "jpeg"}

  predicate IsLowerHexChar(c: char) {
    '0' <= c <= '9' || 'a' <= c <= 'f'
  }

  /** What `hexdigest()` of a SHA-256 hash looks like. */
  predicate IsHexDigest(s: string) {
    |s| == 64 && forall i :: 0 <= i < |s| ==> IsLowerHexChar(s[i])
  }

  type HexDigest = s: string | IsHexDigest(s)
    witness seq(64, _ => '0')

  /** SHA-256 is not modelled; callers pass it in as a deterministic function
      whose results have the shape of a hex digest. */
  type Sha256 = seq<byte> -> HexDigest

  /** The lower-cased text after the last `.`, or `None` when the name has no
      `.` (where `name.rsplit('.', 1)[1]` would raise). */
  function Extension(name: string): (r: Option<string>)
    ensures r.None? <==> '.' !in name
    ensures r.Some? ==> '.' !in r.value && |r.value| < |name|
  {
    match RSplitOnce(name, '.')
    case None => None
    case Some((pre, ext)) => Some(Lower(ext))
  }

  /** `allowed_file`: the name has a `.` and the lower-cased text after the
      last one is an allowed extension. */
  predicate AllowedFile(name: string): (b: bool)
    ensures b ==> '.' in name && |name| >= 4
  {
    '.' in name && Extension(name).value in AllowedExtensions
  }

  /** `get_file_hash`: the hex digest of the contents, a `.`, and the
      lower-cased extension; `None` stands for the `IndexError` raised when
      the name has no `.`. */
  function FileHash(sha: Sha256, contents: seq<byte>, name: string): (r: Option<string>)
    ensures r.Some? <==> '.' in name
    ensures r.Some? ==> |r.value| >= 65 && IsHexDigest(r.value[..64]) && r.value[64] == '.'
  {
    match Extension(name)
    case None => None
    case Some(ext) => Some(sha(contents) + "." + ext)
  }

  /** The extension of `pre.ext`, for a dot-free `ext`, is `ext` lower-cased. */
  lemma ExtensionOfSplit(name: string, pre: string, ext: string)
    requires name == pre + "." + ext && '.' !in ext
    ensures Extension(name) == Some(Lower(ext))
  {
    RSplitOnceUnique(name, '.', pre, ext);
  }

  /** The stored name of `pre.ext`, for a dot-free `ext`, is the digest of the
      contents, a `.`, and `ext` lower-cased. */
  lemma FileHashOfSplit(sha: Sha256, contents: seq<byte>, name: string, pre: string, ext: string)
    requires name == pre + "." + ext && '.' !in ext
    ensures FileHash(sha, contents, name) == Some(sha(contents) + "." + Lower(ext))
  {
    ExtensionOfSplit(name, pre, ext);
  }

  /** Reads a stored name back into its digest and extension: the inverse of
      the name construction in `FileHash`. */
  function ParseStoredName(stored: string): (r: Option<(HexDigest, string)>)
    ensures r.Some? ==> stored == r.value.0 + "." + r.value.1
  {
    if |stored| >= 65 && IsHexDigest(stored[..64]) && stored[64] == '.' then
      Some((stored[..64], stored[65..]))
    else None
  }

  /** `allowed_file` accepts exactly the names of the form `pre.ext` where
      `ext` holds no `.` and lower-cases to png, jpg or jpeg. */
  lemma AllowedFileIff(name: string)
    ensures AllowedFile(name) <==>
      exists pre, ext :: name == pre + "." + ext && '.' !in ext && Lower(ext) in AllowedExtensions
  {
    if AllowedFile(name) {
      var (pre, ext) := RSplitOnce(name, '.').value;
      assert name == pre + "." + ext && '.' !in ext && Lower(ext) in AllowedExtensions;
    }
    if exists pre, ext :: name == pre + "." + ext && '.' !in ext && Lower(ext) in AllowedExtensions {
      var pre, ext :| name == pre + "." + ext && '.' !in ext && Lower(ext) in AllowedExtensions;
      RSplitOnceUnique(name, '.', pre, ext);
    }
  }

  /** For a name split at its last `.`, `allowed_file` looks at the tail only. */
  lemma AllowedFileSplit(name: string, pre: string, ext: string)
    requires name == pre + "." + ext && '.' !in ext
    ensures AllowedFile(name) <==> Lower(ext) in AllowedExtensions
  {
    RSplitOnceUnique(name, '.', pre, ext);
  }

  /** Lower-casing a short literal extension, character by character. */
  lemma LowerThree(a: char, b: char, c: char)
    ensures Lower([a, b, c]) == [LowerChar(a), LowerChar(b), LowerChar(c)]
  {
  }

  lemma LowerFour(a: char, b: char, c: char, d: char)
    ensures Lower([a, b, c, d]) == [LowerChar(a), LowerChar(b), LowerChar(c), LowerChar(d)]
  {
  }

  /** Only the text after the last `.` is looked at: whatever comes
      before, `….png.exe` is rejected and `….tar.png` accepted. */
  lemma AllowedFileLastSuffixOnly(pre: string)
    ensures !AllowedFile(pre + ".png.exe")
    ensures AllowedFile(pre + ".tar.png")
  {
    assert pre + ".png.exe" == (pre + ".png") + "." + "exe";
    AllowedFileSplit(pre + ".png.exe", pre + ".png", "exe");
    LowerThree('e', 'x', 'e');
    assert pre + ".tar.png" == (pre + ".tar") + "." + "png";
    AllowedFileSplit(pre + ".tar.png", pre + ".tar", "png");
    LowerThree('p', 'n', 'g');
  }

  /** Upper-case and mixed-case extensions are accepted. */
  lemma AllowedFileUpperCase(pre: string)
    ensures AllowedFile(pre + ".PNG")
  {
    assert pre + ".PNG" == pre + "." + "PNG";
    AllowedFileSplit(pre + ".PNG", pre, "PNG");
    LowerThree('P', 'N', 'G');
  }

  lemma AllowedFileMixedCase(pre: string)
    ensures AllowedFile(pre + ".JpEg")
  {
    assert pre + ".JpEg" == pre + "." + "JpEg";
    AllowedFileSplit(pre + ".JpEg", pre, "JpEg");
    LowerFour('J', 'p', 'E', 'g');
  }

  /** Other image types and an empty extension are rejected. */
  lemma AllowedFileRejects(pre: string)
    ensures !AllowedFile(pre + ".gif")
    ensures !AllowedFile(pre + ".")
  {
    assert pre + ".gif" == pre + "." + "gif";
    AllowedFileSplit(pre + ".gif", pre, "gif");
    LowerThree('g', 'i', 'f');
    assert pre + "." == pre + "." + "";
    AllowedFileSplit(pre + ".", pre, "");
  }

  /** Lower-casing a name moves none of its `.` characters. */
  lemma LastDotUnderLower(s: string)
    ensures LastIndexOf(Lower(s), '.') == LastIndexOf(s, '.')
  {
    match LastIndexOf(s, '.')
    case None =>
      assert forall i :: 0 <= i < |s| ==> Lower(s)[i] != '.';
    case Some(i) =>
      var l := Lower(s);
      assert l == Lower(s[..i]) + "." + Lower(s[i + 1..]);
      RSplitOnceUnique(l, '.', Lower(s[..i]), Lower(s[i + 1..]));
  }

  /** The extension of a name does not depend on the case of its letters. */
  lemma ExtensionIgnoresCase(n1: string, n2: string)
    requires Lower(n1) == Lower(n2)
    ensures Extension(n1) == Extension(n2)
  {
    LastDotUnderLower(n1);
    LastDotUnderLower(n2);
    var d := LastIndexOf(n1, '.');
    assert d == LastIndexOf(n2, '.');
    if d.Some? {
      var i := d.value;
      LowerTailsAgree(n1, n2, i);
      assert Extension(n1) == Some(Lower(n1[i + 1..]));
      assert Extension(n2) == Some(Lower(n2[i + 1..]));
    }
  }

  lemma LowerTailsAgree(n1: string, n2: string, i: nat)
    requires Lower(n1) == Lower(n2) && i < |n1|
    ensures Lower(n1[i + 1..]) == Lower(n2[i + 1..])
  {
    var t1, t2 := n1[i + 1..], n2[i + 1..];
    forall k | 0 <= k < |t1|
      ensures Lower(t1)[k] == Lower(t2)[k]
    {
      assert Lower(n1)[i + 1 + k] == Lower(n2)[i + 1 + k];
    }
  }

  /** `allowed_file` ignores letter case. */
  lemma AllowedFileIgnoresCase(n1: string, n2: string)
    requires Lower(n1) == Lower(n2)
    ensures AllowedFile(n1) <==> AllowedFile(n2)
  {
    ExtensionIgnoresCase(n1, n2);
  }

  /** Content addressing: the stored name is a function of the contents and
      the lower-cased extension only, so two uploads of the same bytes whose
      names differ at most in letter case get the same name. */
  lemma FileHashDeterministic(sha: Sha256, c1: seq<byte>, n1: string, c2: seq<byte>, n2: string)
    requires c1 == c2 && Lower(n1) == Lower(n2)
    ensures FileHash(sha, c1, n1) == FileHash(sha, c2, n2)
  {
    ExtensionIgnoresCase(n1, n2);
  }

  /** Two uploads share a stored name exactly when their digests and their
      lower-cased extensions agree. */
  lemma FileHashSameName(sha: Sha256, c1: seq<byte>, n1: string, c2: seq<byte>, n2: string)
    requires '.' in n1 && '.' in n2
    ensures FileHash(sha, c1, n1) == FileHash(sha, c2, n2) <==>
      sha(c1) == sha(c2) && Extension(n1) == Extension(n2)
  {
    var r1, r2 := FileHash(sha, c1, n1).value, FileHash(sha, c2, n2).value;
    if r1 == r2 {
      assert sha(c1) == r1[..64] == r2[..64] == sha(c2);
      assert Extension(n1).value == r1[65..] == r2[65..] == Extension(n2).value;
    }
  }

  /** A stored name parses back into the digest of the contents and the
      lower-cased extension. */
  lemma ParseFileHash(sha: Sha256, contents: seq<byte>, name: string)
    requires '.' in name
    ensures ParseStoredName(FileHash(sha, contents, name).value) == Some((sha(contents), Extension(name).value))
  {
    var r := FileHash(sha, contents, name).value;
    assert r[..64] == sha(contents);
    assert r[65..] == Extension(name).value;
  }
}

=== FILE: weighted_dataset.dfy ===
/** Per-class instance counting for class-balanced sampling
    (scripts/fine_tunning_double_balanced.py, `YOLOWeightedDataset`). The
    float class weights, their mean and the sampling probabilities are not
    modelled; only the counting and the shape of the per-label weights are. */
module WeightedDataset {
  import opened Common

  /** One image's annotation: the class ids of its boxes, as
      `lbl['cls'].flatten().astype(int)` yields them. */
  datatype Label = Label(cls: seq<int>)

  /** All class ids of all labels, in label order. */
  function AllIds(labels: seq<Label>): (ids: seq<int>)
    ensures |labels| == 0 ==> ids == []
  {
    if |labels| == 0 then [] else labels[0].cls + AllIds(labels[1..])
  }

  lemma AllIdsCons(labels: seq<Label>, i: nat)
    requires i < |labels|
    ensures AllIds(labels[i..]) == labels[i].cls + AllIds(labels[i + 1..])
  {
    assert labels[i..][1..] == labels[i + 1..];
  }

  /** The array slot numpy's `counts[c]` denotes for an array of length `n`:
      negative indices count from the end; `None` is an `IndexError`. */
  function Slot(n: nat, c: int): (r: Option<nat>)
    ensures r.Some? <==> -(n as int) <= c < n
    ensures r.Some? ==> r.value < n && (0 <= c ==> r.value == c)
    ensures r.Some? && c < 0 ==> r.value == c + n
  {
    if 0 <= c < n then Some(c)
    else if -(n as int) <= c < 0 then Some(c + n)
    else None
  }

  /** Every id is a valid numpy index for an array of length `n`. */
  predicate Indexable(ids: seq<int>, n: nat) {
    forall i :: 0 <= i < |ids| ==> -(n as int) <= ids[i] < n
  }

  /** Every id names a class: `0 <= c < n`. */
  predicate ClassIds(ids: seq<int>, n: nat) {
    forall i :: 0 <= i < |ids| ==> 0 <= ids[i] < n
  }

  function Sum(s: seq<int>): int {
    if |s| == 0 then 0 else s[0] + Sum(s[1..])
  }

  /** Adding one to a slot adds one to the sum. */
  lemma {:induction false} SumIncrement(s: seq<int>, k: nat)
    requires k < |s|
    ensures Sum(s[k := s[k] + 1]) == Sum(s) + 1
  {
    if k > 0 {
      SumIncrement(s[1..], k - 1);
      assert s[k := s[k] + 1][1..] == s[1..][k - 1 := s[k] + 1];
    }
  }

  /** The reference meaning of the counting loop: `counts[c] += 1` for each
      id in turn, or `None` once an id raises `IndexError`. */
  function Tally(counts: seq<int>, ids: seq<int>): (r: Option<seq<int>>)
    ensures r.Some? <==> Indexable(ids, |counts|)
    ensures r.Some? ==> |r.value| == |counts| && Sum(r.value) == Sum(counts) + |ids|
    decreases |ids|
  {
    if |ids| == 0 then Some(counts)
    else
      match Slot(|counts|, ids[0])
      case None => None
      case Some(k) =>
        SumIncrement(counts, k);
        assert forall i :: 0 <= i < |ids[1..]| ==> ids[1..][i] == ids[i + 1];
        Tally(counts[k := counts[k] + 1], ids[1..])
  }

  /** With every id a class id, tallying adds to each class the number of
      times it occurs. */
  lemma {:induction false} TallyCountsOccurrences(counts: seq<int>, ids: seq<int>)
    requires ClassIds(ids, |counts|)
    ensures Tally(counts, ids).Some?
    ensures forall c :: 0 <= c < |counts| ==> Tally(counts, ids).value[c] == counts[c] + multiset(ids)[c]
    decreases |ids|
  {
    if |ids| > 0 {
      var k := ids[0];
      var next := counts[k := counts[k] + 1];
      assert ClassIds(ids[1..], |next|) by {
        assert forall i :: 0 <= i < |ids[1..]| ==> ids[1..][i] == ids[i + 1];
      }
      TallyCountsOccurrences(next, ids[1..]);
      assert ids == [k] + ids[1..];
      assert multiset(ids) == multiset{k} + multiset(ids[1..]);
    }
  }

  function Zeros(n: nat): (z: seq<int>)
    ensures |z| == n && Sum(z) == 0
    ensures forall c :: 0 <= c < n ==> z[c] == 0
  {
    if n == 0 then [] else [0] + Zeros(n - 1)
  }

  /** `np.where(counts == 0, 1, counts)`. */
  function ClampZeros(counts: seq<int>): (r: seq<int>)
    requires forall c :: 0 <= c < |counts| ==> counts[c] >= 0
    ensures |r| == |counts|
    ensures forall c :: 0 <= c < |r| ==> r[c] >= 1
    ensures forall c :: 0 <= c < |r| && counts[c] != 0 ==> r[c] == counts[c]
    ensures forall c :: 0 <= c < |r| && counts[c] == 0 ==> r[c] == 1
  {
    seq(|counts|, c requires 0 <= c < |counts| => if counts[c] == 0 then 1 else counts[c])
  }

  /** The counting loops of `count_instances`, before zero counts are
      replaced: `counts[c]` is the number of times class `c` occurs over all
      labels, and the counts add up to the number of ids. `None` stands for
      the `IndexError` an id outside `[-n, n)` raises. */
  method CountRaw(n: nat, labels: seq<Label>) returns (r: Option<seq<int>>)
    ensures r.Some? <==> Indexable(AllIds(labels), n)
    ensures r.Some? ==> |r.value| == n && Sum(r.value) == |AllIds(labels)|
    ensures r.Some? ==> forall c :: 0 <= c < n ==> r.value[c] >= 0
    ensures ClassIds(AllIds(labels), n) ==> r.Some? && forall c :: 0 <= c < n ==> r.value[c] == multiset(AllIds(labels))[c]
  {
    var counts := Zeros(n);
    ghost var expected := Tally(Zeros(n), AllIds(labels));
    var i := 0;
    while i < |labels|
      invariant 0 <= i <= |labels|
      invariant |counts| == n
      invariant forall c :: 0 <= c < n ==> counts[c] >= 0
      invariant Tally(counts, AllIds(labels[i..])) == expected
    {
      var ids := labels[i].cls;
      AllIdsCons(labels, i);
      var j := 0;
      while j < |ids|
        invariant 0 <= j <= |ids|
        invariant |counts| == n
        invariant forall c :: 0 <= c < n ==> counts[c] >= 0
        invariant Tally(counts, ids[j..] + AllIds(labels[i + 1..])) == expected
      {
        var rest := ids[j..] + AllIds(labels[i + 1..]);
        assert rest[0] == ids[j] && rest[1..] == ids[j + 1..] + AllIds(labels[i + 1..]);
        match Slot(n, ids[j])
        case None =>
          return None;
        case Some(k) =>
          counts := counts[k := counts[k] + 1];
        j := j + 1;
      }
      assert ids[j..] + AllIds(labels[i + 1..]) == AllIds(labels[i + 1..]);
      i := i + 1;
    }
    assert AllIds(labels[i..]) == [];
    r := Some(counts);
    if ClassIds(AllIds(labels), n) {
      TallyCountsOccurrences(Zeros(n), AllIds(labels));
    }
  }

  /** `count_instances`: the per-class counts with every zero replaced by
      one, so that `np.sum(counts) / counts` never divides by zero. */
  method CountInstances(n: nat, labels: seq<Label>) returns (r: Option<seq<int>>)
    ensures r.Some? <==> Indexable(AllIds(labels), n)
    ensures r.Some? ==> |r.value| == n && forall c :: 0 <= c < n ==> r.value[c] >= 1
    ensures ClassIds(AllIds(labels), n) ==> r.Some? && forall c :: 0 <= c < n ==>
      r.value[c] == if multiset(AllIds(labels))[c] == 0 then 1 else multiset(AllIds(labels))[c]
  {
    var raw := CountRaw(n, labels);
    match raw
    case None =>
      return None;
    case Some(counts) =>
      r := Some(ClampZeros(counts));
  }

  /** An id sequence is indexable exactly when each label's ids are. */
  lemma {:induction false} IndexableAllIds(labels: seq<Label>, n: nat)
    ensures Indexable(AllIds(labels), n) <==> forall i :: 0 <= i < |labels| ==> Indexable(labels[i].cls, n)
    decreases |labels|
  {
    if |labels| > 0 {
      IndexableAllIds(labels[1..], n);
      var head, tail := labels[0].cls, AllIds(labels[1..]);
      assert AllIds(labels) == head + tail;
      assert forall i :: 0 <= i < |labels[1..]| ==> labels[1..][i] == labels[i + 1];
      if Indexable(AllIds(labels), n) {
        assert forall k :: 0 <= k < |head| ==> head[k] == (head + tail)[k];
        assert forall k :: 0 <= k < |tail| ==> tail[k] == (head + tail)[|head| + k];
      }
    }
  }

  /** `self.class_weights[cls_ids]`: the weights of a label's classes in id
      order, or `None` for the `IndexError` an invalid id raises. */
  function Gather<W>(weights: seq<W>, ids: seq<int>): (r: Option<seq<W>>)
    ensures r.Some? <==> Indexable(ids, |weights|)
    ensures r.Some? ==> |r.value| == |ids|
    ensures r.Some? ==> forall i :: 0 <= i < |ids| ==> r.value[i] == weights[Slot(|weights|, ids[i]).value]
    decreases |ids|
  {
    if |ids| == 0 then Some([])
    else
      match Slot(|weights|, ids[0])
      case None => None
      case Some(k) =>
        assert forall i :: 0 <= i < |ids[1..]| ==> ids[1..][i] == ids[i + 1];
        match Gather(weights, ids[1..])
        case None => None
        case Some(rest) => Some([weights[k]] + rest)
  }

  /** `calculate_weights`: one aggregated weight per label, in label order;
      `agg` stands for `np.mean`, whose float arithmetic is not modelled. */
  function CalculateWeights<W, V>(labels: seq<Label>, classWeights: seq<W>, agg: seq<W> -> V): (r: Option<seq<V>>)
    ensures r.Some? <==> forall i :: 0 <= i < |labels| ==> Indexable(labels[i].cls, |classWeights|)
    ensures r.Some? ==> |r.value| == |labels|
    ensures r.Some? ==> forall i :: 0 <= i < |labels| ==> r.value[i] == agg(Gather(classWeights, labels[i].cls).value)
    decreases |labels|
  {
    if |labels| == 0 then Some([])
    else
      assert forall i :: 0 <= i < |labels[1..]| ==> labels[1..][i] == labels[i + 1];
      match Gather(classWeights, labels[0].cls)
      case None => None
      case Some(ws) =>
        match CalculateWeights(labels[1..], classWeights, agg)
        case None => None
        case Some(rest) => Some([agg(ws)] + rest)
  }

  /** Once counting succeeded, computing the weights cannot raise: each
      label gets its weight. */
  lemma WeightsAfterCounting<W, V>(labels: seq<Label>, classWeights: seq<W>, agg: seq<W> -> V)
    requires Indexable(AllIds(labels), |classWeights|)
    ensures CalculateWeights(labels, classWeights, agg).Some?
    ensures |CalculateWeights(labels, classWeights, agg).value| == |labels|
  {
    IndexableAllIds(labels, |classWeights|);
  }
}
